=== FILE: README.md ===
# Air conditioner per chat group, modelled in Dafny

The plugin simulates one air-conditioner per chat group. Its commands are
power on, power off, report the temperature, set the target temperature,
set the fan speed, set the ambient temperature, show the tier, and upgrade
or downgrade the tier. A unit is a record holding these fields:

- on/off state;
- ambient, current and target temperature;
- time of the last update;
- room volume;
- fan speed, balance and tier (home or central).

The plugin keeps two copies of the units:

- the module-level **table**, loaded once at start-up and written out whole after each change;
- the persisted **store**. Every status check reloads a fresh copy of the group's unit from it.

Loading repairs each record. Each of the five ranged fields that is missing
or out of range is set to its default.

The temperature is updated lazily, when a command runs:

- a running unit goes through the room physics, with power and airflow chosen by its tier;
- a switched-off unit drifts linearly toward the ambient temperature at 0.05 degrees per second. If a step would overshoot, the temperature stops at the ambient value.

The project has four files:

- `wrappers.dfy`: `Option` and `Result`.
- `air_con_utils.dfy` (module `AirConUtils`): the helpers of `utils.py`.
  - The records, the range table and the repair pass. `RepairRecord` and `LoadStore` are the load loops, proved against `Repaired` and `LoadAll`.
  - `check_range` and `check_status`.
  - Unit creation.
  - `sgn`.
  - The lazy update `Advance`, with the off-state drift and the tier selection.
- `air_con_commands.dfy` (module `AirConCommands`): every state-changing command handler of `__init__.py` as a transition `State -> Step` on the pair (table, store). `show_air_con_type` only reads, so it is a function from the state to `Result<int, Failure>`. It also holds the lemmas about these transitions.
- `air_con_plugin.dfy` (module `AirConPlugin`): class `AirConService`. Its fields are the table and the store, and it has one method per command. Each command method is proved to perform the transition of the same name, and keeps `Valid()`: the store loads to exactly the table. The helper methods `CheckStatus`, `UpdateAirCon` and `WriteTable` model `check_status`, `update_air_con` and `write_group_air_con`.

The clock, the member count of a group, the integer parse of an argument and
the running-unit physics `get_temp` are parameters: `now`, `members`, `parsed`
and `getTemp`.

## Model

| member | source | states |
|---|---|---|
| AirConUtils.RangeOf | utils.py:26-32 | each ranged field's default lies within its bounds |
| AirConUtils.InRangeEveryItem | utils.py:74-77 | a unit is in range exactly when every field the repair loop visits lies within its bounds |
| AirConUtils.RepairValue | utils.py:75-77 | a repaired field is in range, and a present in-range value is kept |
| AirConUtils.Repaired | utils.py:72-77 | after repair all five ranged fields are in range; is_on, now_temp, last_update and volume are unchanged |
| AirConUtils.RepairedFields | utils.py:74-77 | a field that is present and in range is kept; a missing or stray one becomes its default |
| AirConUtils.RepairRecord | utils.py:73-77 | the in-place loop over the five ranged fields yields exactly the repaired record |
| AirConUtils.RepairKeepsHealthy | utils.py:72-77 | writing an in-range unit and repairing it on load gives the same unit back |
| AirConUtils.RepairIdempotent | utils.py:72-77 | repairing a second time changes nothing |
| AirConUtils.LoadAll | utils.py:65-78 | the loaded table has the store's groups, and every loaded unit is in range |
| AirConUtils.LoadStore | utils.py:70-78 | the loop over all groups yields exactly the repaired store |
| AirConUtils.Sgn | utils.py:81-82 | the result is -1, 0 or 1; it is 0 exactly for 0; result times argument is the absolute value |
| AirConUtils.NewAirCon | utils.py:92-96 | a new unit is on and in range; volume is max(2 * members, 20); temperatures 33/33/26; fan speed 0, balance 0, home tier; last update is now |
| AirConUtils.CheckRange | utils.py:49-61 | with a special table, a first character found in it gives its value unchecked and an empty argument fails; otherwise it succeeds iff the parse succeeded and lies in [low, high], fails as not-an-integer or out-of-range accordingly, and returns the parsed value |
| AirConUtils.CheckRangeBounds | utils.py:49-61 | an accepted value lies in [low, high] when every special value does |
| AirConUtils.CheckStatus | utils.py:36-45 | not installed iff the group is absent from the store; not running iff present, required on and off; otherwise the freshly repaired record, which is in range |
| AirConUtils.OffDrift | utils.py:151-154 | for elapsed >= 0 the new temperature lies between the old one and ambient; it is unchanged at ambient or after 0 seconds |
| AirConUtils.OffDriftIsDriftToward | utils.py:151-154 | the off step equals an independent definition: move elapsed * 0.05 toward ambient, stopping there |
| AirConUtils.DriftTowardAdditive | utils.py:151-154 | two clamped moves toward ambient add up to one move |
| AirConUtils.OffDriftAdditive | utils.py:144-157 | drifting over a seconds and then b seconds is drifting over a + b seconds |
| AirConUtils.OffDriftReachesAmbient | utils.py:151-154 | once elapsed * 0.05 covers the gap, the temperature is exactly ambient |
| AirConUtils.CentralUnits | utils.py:133-135 | the central unit count is volume // 100 + 1, characterised by bounds; it is at least 1 |
| AirConUtils.Power | utils.py:123-134 | a non-central unit gets the home power table entry for its fan speed (5000, 6000 or 7500); a central one gets units * 7500, at least 7500 |
| AirConUtils.Airflow | utils.py:124-135 | a non-central unit gets the home airflow entry for its fan speed; a central one gets units * 0.577, at least 0.577 |
| AirConUtils.TierSelection | utils.py:129-137 | home power is one of 5000/6000/7500 and rises with the fan speed; central power is units * 7500 >= 7500 and airflow >= 0.577 |
| AirConUtils.Advance | utils.py:117-157 | the update changes only now_temp and last_update and sets last_update to now; a running unit's new temperature is the physics applied to its volume, its tier's airflow and power, its target, its temperature and the elapsed seconds; a switched-off unit's is the off drift over the elapsed seconds, which stays between old and ambient; ranged fields stay in range |
| AirConUtils.AdvanceOffComposes | utils.py:144-157 | for a switched-off unit, updating at t1 and then at t2 equals updating at t2 |
| AirConCommands.Persist | utils.py:85-89 | the written store has exactly the table's groups |
| AirConCommands.LoadPersistRoundTrip | utils.py:65-89 | loading what was written for an in-range table gives the table back |
| AirConCommands.Init | __init__.py:11 | at start-up the table is the loaded store, so the two are coherent |
| AirConCommands.CheckStatusMatchesTable | utils.py:36-45 | in a coherent state the fresh copy of the status check equals the table's unit, and the check fails exactly when the table has no unit, or has a switched-off unit and the command needs it on |
| AirConCommands.AirConOn | __init__.py:14-34 | refused (AlreadyOn, nothing changes) exactly when the table has a running unit; otherwise the reply is running and the table with it is written |
| AirConCommands.AirConOff | __init__.py:37-49 | a refusal changes nothing; on success the reply is switched off and the table is written as it was |
| AirConCommands.AirConNow | __init__.py:52-70 | a refusal changes nothing; on success the reply carries last_update = now and the table with it is written |
| AirConCommands.SetTargetTemp | __init__.py:73-93 | a refusal changes nothing; on success the reply carries the parsed target and the table is written as it was |
| AirConCommands.SetWindRate | __init__.py:96-117 | a refusal changes nothing; on success the unit is a home unit and the table is written as it was |
| AirConCommands.SetEnvTemp | __init__.py:120-147 | a refusal changes nothing; on success the reply carries the parsed ambient temperature and the table with it is written |
| AirConCommands.UpgradeAirCon | __init__.py:165-185 | a refusal changes nothing; on success the reply is central and the table with it is written |
| AirConCommands.DowngradeAirCon | __init__.py:188-208 | a refusal changes nothing; on success the reply is home and the table with it is written |
| AirConCommands.Apply | __init__.py:14-208 | after any command the state is either unchanged or the store is exactly the written table |
| AirConCommands.ShowAirConType | __init__.py:150-162 | succeeds iff the group has a unit, and reports the table unit's tier, which is home or central |
| AirConCommands.StepPreservesCoherent | __init__.py:14-208 | every command leaves the store loading to exactly the table, so every unit stays in range |
| AirConCommands.RefusalKinds | utils.py:36-61 | an absent group is reported not installed by every command but power-on; a switched-off unit is reported not running by power-off, set-target and set-fan-speed; a rejected argument gets the range check's own error (set-target, set-ambient, and set-fan-speed once the tier check passes); show-tier fails only as not installed |
| AirConCommands.FixedRefusalKinds | utils.py:36-61 | the corrected power-off, set-target and set-fan-speed report not installed, not running, the tier refusal and the range check's error exactly where the ones as written do |
| AirConCommands.FailureChangesNothing | __init__.py:14-208 | a refused command changes neither the table nor the store |
| AirConCommands.StepWritesReply | __init__.py:14-208 | a command either leaves the table as it was or sets its own group to the unit it replies with |
| AirConCommands.StepTouchesOnlyItsGroup | __init__.py:14-208 | no command removes a group; only power-on adds one; other groups' units never change |
| AirConCommands.PowerOnInstalls | __init__.py:18-33 | power-on of a new group adds exactly that group; the unit is the new unit advanced to now and switched on, so it runs, has the sized volume, targets 26 with ambient 33, fan speed 0, balance 0 and home tier |
| AirConCommands.NowIsAdvance | __init__.py:52-70 | reporting succeeds iff the group has a unit (else NotInstalled, nothing changes); the reply is the table's unit advanced to now, and the table keeps it |
| AirConCommands.PowerOnRunningIsRefused | __init__.py:24-28 | power-on of a running unit is refused and leaves the state as it was |
| AirConCommands.PowerOnAdvancesFirst | __init__.py:24-33 | power-on of a switched-off unit applies its off drift up to now, then switches it on |
| AirConCommands.SentinelRefused | __init__.py:81-87 | 114514 is refused by set-target (and, at lines 128-134, by set-ambient) and nothing changes |
| AirConCommands.TemperatureArgumentAccepted | __init__.py:77-90 | set-target succeeds iff the unit is running and the value parses, lies in [-273, 999999] and is not 114514, and shows the table unit advanced to now with that target; set-ambient needs the same but not a running unit, and the table gets the unit advanced to now with that ambient temperature |
| AirConCommands.FanSpeedRules | __init__.py:100-114 | a non-home unit is refused before the argument is read; the shown unit is the unit advanced to now with only the fan speed changed, to the word's or number's value minus 1, within 0..2 |
| AirConCommands.UpgradeBounded | __init__.py:165-185 | upgrade succeeds exactly on a home unit, and the table gets the unit advanced to now with tier central; on a central unit it is refused and changes nothing |
| AirConCommands.DowngradeBounded | __init__.py:188-208 | downgrade succeeds exactly on a central unit, and the table gets the unit advanced to now with tier home; on a home unit it is refused and changes nothing |
| AirConCommands.CopyChangesAreLost | __init__.py:41-48 | power-off, set-target and set-fan-speed write the table they started from |
| AirConCommands.PowerOffRules | __init__.py:37-49 | power-off is accepted iff the table has a running unit for the group, otherwise NotInstalled or NotRunning; the shown unit is the unit advanced to now and switched off; the corrected power-off is accepted under the same condition |
| AirConCommands.FanSpeedAccepted | __init__.py:100-114 | set-fan-speed, as written and corrected, is accepted iff the unit is installed, running and home tier and check_range accepts the argument (1..3 or 低/中/高) |
| AirConCommands.SetTargetFixedAccepted | __init__.py:77-90 | the corrected set-target is accepted iff the unit is running and the value parses, lies in [-273, 999999] and is not 114514 |
| AirConCommands.PowerOffIsLost | __init__.py:37-49 | after an accepted power-off the reply shows the unit off, but the next status check returns the unchanged, running unit |
| AirConCommands.SetTargetIsLost | __init__.py:73-93 | after an accepted set-target the table keeps the old target, which differs from the shown one whenever the value is new |
| AirConCommands.SetWindRateIsLost | __init__.py:96-117 | after an accepted fan-speed change the table keeps the old speed |
| AirConCommands.RunningUnitStaysOn | __init__.py:37-49 | a running unit in the table is still running after any command |
| AirConCommands.AirConOffFixed | __init__.py:37-49 | corrected power-off: a refusal changes nothing; on success the switched-off reply is written into the table |
| AirConCommands.SetTargetTempFixed | __init__.py:73-93 | corrected set-target: a refusal changes nothing; on success the reply with the parsed target is written into the table |
| AirConCommands.SetWindRateFixed | __init__.py:96-117 | corrected set-fan-speed: a refusal changes nothing; on success the home-tier reply is written into the table |
| AirConCommands.PowerOffFixedTakesEffect | __init__.py:37-49 | corrected power-off keeps coherence, stores the table unit advanced to now and switched off, and the next status check reports it not running |
| AirConCommands.SetTargetFixedTakesEffect | __init__.py:73-93 | corrected set-target keeps coherence and stores the table unit advanced to now with the accepted target, which is in [-273, 999999] and not 114514 |
| AirConCommands.SetWindRateFixedTakesEffect | __init__.py:96-117 | corrected set-fan-speed keeps coherence and stores the table unit advanced to now with fan speed set to the word's or number's value minus 1, within 0..2 |
| AirConPlugin.AirConService.constructor | __init__.py:11 | the table is the loaded store and the service is coherent |
| AirConPlugin.AirConService.CheckStatus | utils.py:36-45 | the method, which reloads the store, returns what the status check function specifies |
| AirConPlugin.AirConService.UpdateAirCon | utils.py:117-157 | the group's unit in the table is replaced by its advanced unit, which stays in range |
| AirConPlugin.AirConService.WriteTable | utils.py:85-89 | the store becomes the written table, and the state is coherent |
| AirConPlugin.AirConService.AirConOn | __init__.py:14-34 | reply and new table/store are those of the power-on transition; coherence is kept |
| AirConPlugin.AirConService.AirConOff | __init__.py:37-49 | reply and new state are those of the power-off transition (the copy is switched off, the table is written unchanged) |
| AirConPlugin.AirConService.AirConNow | __init__.py:52-70 | reply and new state are those of the report transition: the table's unit is advanced and written |
| AirConPlugin.AirConService.SetTargetTemp | __init__.py:73-93 | reply and new state are those of the set-target transition as written |
| AirConPlugin.AirConService.SetWindRate | __init__.py:96-117 | reply and new state are those of the set-fan-speed transition as written |
| AirConPlugin.AirConService.SetEnvTemp | __init__.py:120-147 | reply and new state are those of the set-ambient transition |
| AirConPlugin.AirConService.ShowAirConType | __init__.py:150-162 | the reply is the table unit's tier, or the status failure |
| AirConPlugin.AirConService.UpgradeAirCon | __init__.py:165-185 | reply and new state are those of the upgrade transition |
| AirConPlugin.AirConService.DowngradeAirCon | __init__.py:188-208 | reply and new state are those of the downgrade transition |

## Left out

- The numeric body of `get_temp` (utils.py:103-114) is not modelled. It uses floating-point powers and rounds to one decimal. It is the parameter `getTemp`, a function of its six inputs, so the running-unit temperature is not constrained.
- Floating point: temperatures are Dafny `real`s, so rounding and representation error are not modelled.
- `print_air_con` (utils.py:160-173) and every message text are not modelled. A handler replies with the unit it would print, or with a `Failure`.
- Reading and writing the JSON file and the `os.path` handling are not modelled. The store is a map. If the file is missing at load, which writes `{}`, the store is simply empty. Writing is `Persist`, and every field is written.
- A stored record whose ranged field holds a non-integer JSON value is not modelled, because the fields are typed `Option<int>`. A record missing one of `is_on`, `now_temp`, `last_update` or `volume` is not modelled either. In the code such a record raises a KeyError only when a handler reads the missing field. `is_on` is read by `check_status` when the command needs a running unit (utils.py:42), by `air_con_on` (__init__.py:26), by `update_air_con` (utils.py:118), by `print_air_con` (utils.py:166) and by the report handlers (__init__.py:65, 142). A handler that reaches `update_air_con` has read it by then. A refused upgrade or downgrade, and `show_air_con_type`, never read it. `now_temp` and `last_update` are read by `update_air_con` (utils.py:119-120, 146-147), and `now_temp` also by `print_air_con` (utils.py:162). `volume` is read only for a running unit (utils.py:121). So, for example, `show_air_con_type` reads none of the four.
- `now_second` and `datetime` are not modelled: the current second is the parameter `now`. `air_con_on` for a new group reads the clock twice, in `new_air_con` and in `update_air_con`. Both readings are taken as the same `now`.
- The chat framework is not modelled: decorators, `bot.send`, async/await, and the exceptions used as control flow. `bot.get_group_info` is replaced by the parameter `members`. A raised exception is an `Err` reply that leaves the state unchanged.
- Python's `int()` parsing of the argument is not modelled. It is the parameter `parsed`: `None` when parsing fails, otherwise the integer. `msg` is the stripped argument, used only for its first character.
- `new_air_con`'s optional `set_temp` and `now_temp` arguments are fixed to their defaults, 26 and 33, because the plugin never passes them.
- Unit dicts are modelled as values in the table map, which the handlers reassign. The fresh copy from a status check is a separate value. Aliasing of a dict between two names is therefore expressed by which map a handler reads and writes. It is not expressed by object identity.
- `AirConUtils.Advance`: requires a fan speed within 0..2 for a running unit, since `update_air_con` indexes the power table by the fan speed before it looks at the tier (utils.py:123). Every unit in a coherent state meets this.
- `AirConUtils.Advance`: for a running unit with a tier outside {0, 1}, the code keeps the home values (utils.py:136-137). The model does the same, but loading never lets such a tier through.
- `AirConUtils.Advance`: sets `last_update` to the clock reading without comparing it with the old value, as the code does (utils.py:142, 157). `last_update` is monotonic only if the clock is.
- `Coherent` and `Valid`: every transition and method requires that the store loads to exactly the table. So the model assumes the file changes only through the plugin's own writes. Two cases in which the code lets the file and the table diverge are therefore not modelled:
  - The file is edited while the bot runs. `check_status` (utils.py:37) would then see the edited record. `air_cons[gid]` (__init__.py:60, 136, 158, 173, 196) would raise a KeyError for a group that exists only in the file.
  - `bot.send` raises after the insert at __init__.py:22. The table then holds a unit the file lacks: the status-gated commands report "not installed", while power-on reports "already on".
- `AirConOffFixed`, `SetTargetTempFixed` and `SetWindRateFixed` are corrected transitions. The service class still follows the code as written, because that is the behaviour of the plugin.

## Findings

| source | as written | input that shows it | evidently intended | confidence | as-written member | corrected member |
|---|---|---|---|---|---|---|
| __init__.py:41-48 | `air_con_off` switches off the fresh copy returned by `check_status`, then writes the module table `air_cons`, which still holds the running unit | a group whose unit is running sends power-off, then any command: the unit is still on in the table and in the file | the table's unit is advanced and switched off, then written | not executed | AirConCommands.PowerOffIsLost | AirConCommands.PowerOffFixedTakesEffect |
| __init__.py:77-92 | `set_temp` sets the target on the fresh copy and writes the unchanged module table | a running unit with target 26 gets "set target 20": the reply shows 20, the table and file keep 26 | the table's unit gets the new target | not executed | AirConCommands.SetTargetIsLost | AirConCommands.SetTargetFixedTakesEffect |
| __init__.py:100-116 | `set_wind_rate` sets the fan speed on the fresh copy and writes the unchanged module table | a running home unit at speed 0 gets "set fan 高": the reply shows speed 2, the table and file keep 0 | the table's unit gets the new fan speed | not executed | AirConCommands.SetWindRateIsLost | AirConCommands.SetWindRateFixedTakesEffect |

=== FILE: air_con_commands.dfy ===
/**
 * The chat commands of the air-conditioner plugin as transitions on its state.
 *
 * The state has two parts. `table` is the module-level table of units, loaded
 * once at start-up and written out whole after every change. `store` is what
 * the persisted file holds; the status check reads a fresh copy of a unit from
 * it. Every state-changing command runs its checks first, then advances the
 * temperature, then changes one field; showing the tier only reads.
 */
module AirConCommands {
  import opened Wrappers
  import opened AirConUtils

  const Sentinel: int := 114514         // refused by the temperature commands
  const TempLow: int := -273
  const TempHigh: int := 999999
  const FanLow: int := 1
  const FanHigh: int := 3
  const TierCount: int := 2             // number of tier names: home, central

  /** The words that name a fan speed. */
  const FanWords: map<char, int> := map['低' := 1, '中' := 2, '高' := 3]

  datatype State = State(table: map<Gid, Unit>, store: map<Gid, StoredUnit>)

  /** What a command replies and the state after it. */
  datatype Step = Step(reply: Result<Unit, Failure>, next: State)

  datatype Command =
    | On(members: int)
    | Off
    | Now
    | Target(msg: string, parsed: Option<int>)
    | Fan(msg: string, parsed: Option<int>)
    | Ambient(msg: string, parsed: Option<int>)
    | Up
    | Down

  /** The store after the whole table is written out. */
  function Persist(table: map<Gid, Unit>): (store: map<Gid, StoredUnit>)
    ensures store.Keys == table.Keys
  {
    map g | g in table :: ToStored(table[g])
  }

  /** The state after the whole table is written out. */
  function Write(table: map<Gid, Unit>): State
  {
    State(table, Persist(table))
  }

  /** Loading what was written for a table of in-range units gives the table back. */
  lemma LoadPersistRoundTrip(table: map<Gid, Unit>)
    requires AllInRange(table)
    ensures LoadAll(Persist(table)) == table
  {
    forall g | g in table ensures LoadAll(Persist(table))[g] == table[g] {
      RepairKeepsHealthy(table[g]);
    }
  }

  /** The store loads to exactly the table, so every unit in the table is in range. */
  predicate Coherent(s: State)
  {
    LoadAll(s.store) == s.table
  }

  /** The state at start-up: the table is the loaded store. */
  function Init(store: map<Gid, StoredUnit>): (s: State)
    ensures Coherent(s) && s.store == store
  {
    State(LoadAll(store), store)
  }

  /** In a coherent state the status check hands out a copy of the table's unit. */
  lemma CheckStatusMatchesTable(s: State, gid: Gid, needOn: bool)
    requires Coherent(s)
    ensures gid in s.table <==> gid in s.store
    ensures gid in s.table ==> InRange(s.table[gid])
    ensures CheckStatus(s.store, gid, needOn).Ok? <==> gid in s.table && (needOn ==> s.table[gid].isOn)
    ensures CheckStatus(s.store, gid, needOn).Ok? ==> CheckStatus(s.store, gid, needOn).value == s.table[gid]
  {
  }

  /** Power on: install a unit for a new group, or switch an existing one on. */
  function AirConOn(s: State, gid: Gid, members: int, now: int, getTemp: TempFn): (step: Step)
    requires Coherent(s)
    ensures step.reply.Err? <==> gid in s.table && s.table[gid].isOn
    ensures step.reply.Err? ==> step == Step(Err(AlreadyOn), s)
    ensures step.reply.Ok? ==> step.reply.value.isOn && step.next == Write(s.table[gid := step.reply.value])
  {
    if gid !in s.table then
      var u := Advance(NewAirCon(members, now), now, getTemp).(isOn := true);
      Step(Ok(u), Write(s.table[gid := u]))
    else if s.table[gid].isOn then
      Step(Err(AlreadyOn), s)
    else
      var u := Advance(s.table[gid], now, getTemp).(isOn := true);
      Step(Ok(u), Write(s.table[gid := u]))
  }

  /** Power off, as written: the fresh copy is switched off, the unchanged table is written. */
  function AirConOff(s: State, gid: Gid, now: int, getTemp: TempFn): (step: Step)
    requires Coherent(s)
    ensures step.reply.Err? ==> step.next == s
    ensures step.reply.Ok? ==> !step.reply.value.isOn && step.next == Write(s.table)
  {
    match CheckStatus(s.store, gid, true)
    case Err(e) => Step(Err(e), s)
    case Ok(copy) =>
      var shown := Advance(copy, now, getTemp).(isOn := false);
      Step(Ok(shown), Write(s.table))
  }

  /** Report the current temperature, advancing the table's unit. */
  function AirConNow(s: State, gid: Gid, now: int, getTemp: TempFn): (step: Step)
    requires Coherent(s)
    ensures step.reply.Err? ==> step.next == s
    ensures step.reply.Ok? ==> step.reply.value.lastUpdate == now && step.next == Write(s.table[gid := step.reply.value])
  {
    match CheckStatus(s.store, gid, false)
    case Err(e) => Step(Err(e), s)
    case Ok(_) =>
      var u := Advance(s.table[gid], now, getTemp);
      Step(Ok(u), Write(s.table[gid := u]))
  }

  /** Set the target temperature, as written: the fresh copy gets it, the unchanged table is written. */
  function SetTargetTemp(s: State, gid: Gid, msg: string, parsed: Option<int>, now: int, getTemp: TempFn): (step: Step)
    requires Coherent(s)
    ensures step.reply.Err? ==> step.next == s
    ensures step.reply.Ok? ==> parsed.Some? && step.reply.value.setTemp == parsed.value && step.next == Write(s.table)
  {
    match CheckStatus(s.store, gid, true)
    case Err(e) => Step(Err(e), s)
    case Ok(copy) =>
      match CheckRange(msg, parsed, TempLow, TempHigh, map[])
      case Err(e) => Step(Err(e), s)
      case Ok(v) =>
        if v == Sentinel then Step(Err(JokeValue), s)
        else
          var shown := Advance(copy, now, getTemp).(setTemp := v);
          Step(Ok(shown), Write(s.table))
  }

  /** Set the fan speed, as written: the fresh copy gets speed - 1, the unchanged table is written. */
  function SetWindRate(s: State, gid: Gid, msg: string, parsed: Option<int>, now: int, getTemp: TempFn): (step: Step)
    requires Coherent(s)
    ensures step.reply.Err? ==> step.next == s
    ensures step.reply.Ok? ==> step.reply.value.acType == Home && step.next == Write(s.table)
  {
    match CheckStatus(s.store, gid, true)
    case Err(e) => Step(Err(e), s)
    case Ok(copy) =>
      if copy.acType != Home then Step(Err(NotHomeTier), s)
      else
        match CheckRange(msg, parsed, FanLow, FanHigh, FanWords)
        case Err(e) => Step(Err(e), s)
        case Ok(v) =>
          var shown := Advance(copy, now, getTemp).(windRate := v - 1);
          Step(Ok(shown), Write(s.table))
  }

  /** Set the ambient temperature of the table's unit; the unit may be off. */
  function SetEnvTemp(s: State, gid: Gid, msg: string, parsed: Option<int>, now: int, getTemp: TempFn): (step: Step)
    requires Coherent(s)
    ensures step.reply.Err? ==> step.next == s
    ensures step.reply.Ok? ==>
              parsed.Some? && step.reply.value.envTemp == parsed.value &&
              step.next == Write(s.table[gid := step.reply.value])
  {
    match CheckStatus(s.store, gid, false)
    case Err(e) => Step(Err(e), s)
    case Ok(_) =>
      match CheckRange(msg, parsed, TempLow, TempHigh, map[])
      case Err(e) => Step(Err(e), s)
      case Ok(v) =>
        if v == Sentinel then Step(Err(JokeValue), s)
        else
          var u := Advance(s.table[gid], now, getTemp).(envTemp := v);
          Step(Ok(u), Write(s.table[gid := u]))
  }

  /** Report the tier of the table's unit; nothing is advanced or written. */
  function ShowAirConType(s: State, gid: Gid): (r: Result<int, Failure>)
    requires Coherent(s)
    ensures r.Ok? <==> gid in s.table
    ensures r.Ok? ==> r.value == s.table[gid].acType && (r.value == Home || r.value == Central)
  {
    CheckStatusMatchesTable(s, gid, false);
    match CheckStatus(s.store, gid, false)
    case Err(e) => Err(e)
    case Ok(_) => Ok(s.table[gid].acType)
  }

  /** Move the table's unit one tier up. */
  function UpgradeAirCon(s: State, gid: Gid, now: int, getTemp: TempFn): (step: Step)
    requires Coherent(s)
    ensures step.reply.Err? ==> step.next == s
    ensures step.reply.Ok? ==> step.reply.value.acType == Central && step.next == Write(s.table[gid := step.reply.value])
  {
    match CheckStatus(s.store, gid, false)
    case Err(e) => Step(Err(e), s)
    case Ok(_) =>
      var u := s.table[gid];
      if u.acType == TierCount - 1 then Step(Err(HighestTier), s)
      else
        var v := Advance(u, now, getTemp).(acType := u.acType + 1);
        Step(Ok(v), Write(s.table[gid := v]))
  }

  /** Move the table's unit one tier down. */
  function DowngradeAirCon(s: State, gid: Gid, now: int, getTemp: TempFn): (step: Step)
    requires Coherent(s)
    ensures step.reply.Err? ==> step.next == s
    ensures step.reply.Ok? ==> step.reply.value.acType == Home && step.next == Write(s.table[gid := step.reply.value])
  {
    match CheckStatus(s.store, gid, false)
    case Err(e) => Step(Err(e), s)
    case Ok(_) =>
      var u := s.table[gid];
      if u.acType == 0 then Step(Err(LowestTier), s)
      else
        var v := Advance(u, now, getTemp).(acType := u.acType - 1);
        Step(Ok(v), Write(s.table[gid := v]))
  }

  /** The command a group sends, routed to its handler. */
  function Apply(s: State, gid: Gid, cmd: Command, now: int, getTemp: TempFn): (step: Step)
    requires Coherent(s)
    ensures step.next == s || step.next == Write(step.next.table)
  {
    match cmd
    case On(members) => AirConOn(s, gid, members, now, getTemp)
    case Off => AirConOff(s, gid, now, getTemp)
    case Now => AirConNow(s, gid, now, getTemp)
    case Target(msg, parsed) => SetTargetTemp(s, gid, msg, parsed, now, getTemp)
    case Fan(msg, parsed) => SetWindRate(s, gid, msg, parsed, now, getTemp)
    case Ambient(msg, parsed) => SetEnvTemp(s, gid, msg, parsed, now, getTemp)
    case Up => UpgradeAirCon(s, gid, now, getTemp)
    case Down => DowngradeAirCon(s, gid, now, getTemp)
  }

  /** Every unit of the table is in range. */
  predicate AllInRange(table: map<Gid, Unit>)
  {
    forall g :: g in table ==> InRange(table[g])
  }

  /** Replacing one group's unit by an in-range unit keeps every unit in range. */
  lemma UpdatedInRange(table: map<Gid, Unit>, gid: Gid, u: Unit)
    requires AllInRange(table) && InRange(u)
    ensures AllInRange(table[gid := u])
  {
    var t := table[gid := u];
    forall g | g in t ensures InRange(t[g]) {
      if g != gid { assert t[g] == table[g]; }
    }
  }

  /** Writing a table whose units are all in range keeps the state coherent. */
  lemma WriteCoherent(table: map<Gid, Unit>)
    requires AllInRange(table)
    ensures Coherent(Write(table))
  {
    LoadPersistRoundTrip(table);
  }

  /** Writing the table with one group's unit replaced by an in-range unit keeps the state coherent. */
  lemma WriteUpdatedCoherent(s: State, gid: Gid, u: Unit)
    requires Coherent(s) && InRange(u)
    ensures Coherent(Write(s.table[gid := u]))
  {
    UpdatedInRange(s.table, gid, u);
    WriteCoherent(s.table[gid := u]);
  }

  /** Every command keeps the store mirroring the table, so every unit stays in range. */
  lemma {:induction false} StepPreservesCoherent(s: State, gid: Gid, cmd: Command, now: int, getTemp: TempFn)
    requires Coherent(s)
    ensures Coherent(Apply(s, gid, cmd, now, getTemp).next)
  {
    var step := Apply(s, gid, cmd, now, getTemp);
    CheckStatusMatchesTable(s, gid, cmd.On? || cmd.Off? || cmd.Target? || cmd.Fan?);
    if step.next != s {
      match cmd
      case Off => WriteCoherent(s.table);
      case Target(_, _) => WriteCoherent(s.table);
      case Fan(_, _) => WriteCoherent(s.table);
      case Ambient(msg, parsed) =>
        CheckRangeBounds(msg, parsed, TempLow, TempHigh, map[]);
        WriteUpdatedCoherent(s, gid, step.reply.value);
      case _ => WriteUpdatedCoherent(s, gid, step.reply.value);
    }
  }

  /**
   * Which refusal a command reports: an absent group is not installed, a
   * switched-off unit is not running for the commands that need it on, and a
   * rejected argument gets the error of the range check.
   */
  lemma RefusalKinds(s: State, gid: Gid, cmd: Command, now: int, getTemp: TempFn)
    requires Coherent(s)
    ensures gid !in s.table && !cmd.On? ==> Apply(s, gid, cmd, now, getTemp).reply == Err(NotInstalled)
    ensures gid in s.table && !s.table[gid].isOn && (cmd.Off? || cmd.Target? || cmd.Fan?) ==>
              Apply(s, gid, cmd, now, getTemp).reply == Err(NotRunning)
    ensures cmd.Target? && gid in s.table && s.table[gid].isOn &&
            CheckRange(cmd.msg, cmd.parsed, TempLow, TempHigh, map[]).Err? ==>
              Apply(s, gid, cmd, now, getTemp).reply == Err(CheckRange(cmd.msg, cmd.parsed, TempLow, TempHigh, map[]).error)
    ensures cmd.Ambient? && gid in s.table && CheckRange(cmd.msg, cmd.parsed, TempLow, TempHigh, map[]).Err? ==>
              Apply(s, gid, cmd, now, getTemp).reply == Err(CheckRange(cmd.msg, cmd.parsed, TempLow, TempHigh, map[]).error)
    ensures cmd.Fan? && gid in s.table && s.table[gid].isOn && s.table[gid].acType == Home &&
            CheckRange(cmd.msg, cmd.parsed, FanLow, FanHigh, FanWords).Err? ==>
              Apply(s, gid, cmd, now, getTemp).reply == Err(CheckRange(cmd.msg, cmd.parsed, FanLow, FanHigh, FanWords).error)
    ensures ShowAirConType(s, gid).Err? ==> ShowAirConType(s, gid) == Err(NotInstalled)
  {
    CheckStatusMatchesTable(s, gid, true);
    CheckStatusMatchesTable(s, gid, false);
  }

  /** The corrected transitions report the same refusals as the ones as written. */
  lemma FixedRefusalKinds(s: State, gid: Gid, msg: string, parsed: Option<int>, now: int, getTemp: TempFn)
    requires Coherent(s)
    ensures gid !in s.table ==>
              && AirConOffFixed(s, gid, now, getTemp).reply == Err(NotInstalled)
              && SetTargetTempFixed(s, gid, msg, parsed, now, getTemp).reply == Err(NotInstalled)
              && SetWindRateFixed(s, gid, msg, parsed, now, getTemp).reply == Err(NotInstalled)
    ensures gid in s.table && !s.table[gid].isOn ==>
              && AirConOffFixed(s, gid, now, getTemp).reply == Err(NotRunning)
              && SetTargetTempFixed(s, gid, msg, parsed, now, getTemp).reply == Err(NotRunning)
              && SetWindRateFixed(s, gid, msg, parsed, now, getTemp).reply == Err(NotRunning)
    ensures gid in s.table && s.table[gid].isOn && CheckRange(msg, parsed, TempLow, TempHigh, map[]).Err? ==>
              SetTargetTempFixed(s, gid, msg, parsed, now, getTemp).reply ==
                Err(CheckRange(msg, parsed, TempLow, TempHigh, map[]).error)
    ensures gid in s.table && s.table[gid].isOn && s.table[gid].acType != Home ==>
              SetWindRateFixed(s, gid, msg, parsed, now, getTemp).reply == Err(NotHomeTier)
    ensures gid in s.table && s.table[gid].isOn && s.table[gid].acType == Home &&
            CheckRange(msg, parsed, FanLow, FanHigh, FanWords).Err? ==>
              SetWindRateFixed(s, gid, msg, parsed, now, getTemp).reply ==
                Err(CheckRange(msg, parsed, FanLow, FanHigh, FanWords).error)
  {
    CheckStatusMatchesTable(s, gid, true);
  }

  /** A refused command changes nothing. */
  lemma FailureChangesNothing(s: State, gid: Gid, cmd: Command, now: int, getTemp: TempFn)
    requires Coherent(s)
    ensures Apply(s, gid, cmd, now, getTemp).reply.Err? ==> Apply(s, gid, cmd, now, getTemp).next == s
  {
  }

  /** A command either leaves the table as it was or sets its own group's unit to the unit it replies with. */
  lemma {:induction false} StepWritesReply(s: State, gid: Gid, cmd: Command, now: int, getTemp: TempFn)
    requires Coherent(s)
    ensures var step := Apply(s, gid, cmd, now, getTemp);
      step.next.table == s.table || (step.reply.Ok? && step.next.table == s.table[gid := step.reply.value])
  {
    match cmd
    case On(_) =>
    case Off =>
    case Now =>
    case Target(_, _) =>
    case Fan(_, _) =>
    case Ambient(_, _) =>
    case Up =>
    case Down =>
  }

  /** Groups are only ever added, by power-on, and a command touches only its own group. */
  lemma {:induction false} StepTouchesOnlyItsGroup(s: State, gid: Gid, cmd: Command, now: int, getTemp: TempFn)
    requires Coherent(s)
    ensures s.table.Keys <= Apply(s, gid, cmd, now, getTemp).next.table.Keys <= s.table.Keys + {gid}
    ensures gid !in s.table && !cmd.On? ==> Apply(s, gid, cmd, now, getTemp).next.table.Keys == s.table.Keys
    ensures forall g :: g in s.table && g != gid ==> Apply(s, gid, cmd, now, getTemp).next.table[g] == s.table[g]
  {
    StepWritesReply(s, gid, cmd, now, getTemp);
    CheckStatusMatchesTable(s, gid, cmd.On? || cmd.Off? || cmd.Target? || cmd.Fan?);
  }

  /** Power-on of a new group installs exactly one unit, sized from the member count, and running. */
  lemma PowerOnInstalls(s: State, gid: Gid, members: int, now: int, getTemp: TempFn)
    requires Coherent(s) && gid !in s.table
    ensures var step := AirConOn(s, gid, members, now, getTemp);
      && step.reply.Ok?
      && step.next.table == s.table[gid := step.reply.value]
      && |step.next.table| == |s.table| + 1
      && step.reply.value.isOn
      && step.reply.value.volume == (if members * UnitVolume > MinVolume then members * UnitVolume else MinVolume)
      && step.reply.value.lastUpdate == now
      && step.reply.value.setTemp == DefaultSetTemp && step.reply.value.envTemp == DefaultNowTemp
      && step.reply.value.acType == Home && step.reply.value.windRate == 0 && step.reply.value.balance == 0
      && step.reply.value == Advance(NewAirCon(members, now), now, getTemp).(isOn := true)
  {
  }

  /** Reporting the temperature succeeds exactly for an installed unit, which is advanced to now and kept. */
  lemma NowIsAdvance(s: State, gid: Gid, now: int, getTemp: TempFn)
    requires Coherent(s)
    ensures var step := AirConNow(s, gid, now, getTemp);
      && (step.reply.Ok? <==> gid in s.table)
      && (step.reply.Err? ==> step == Step(Err(NotInstalled), s))
      && (step.reply.Ok? ==>
            step.reply.value == Advance(s.table[gid], now, getTemp) &&
            step.next.table == s.table[gid := step.reply.value])
  {
    CheckStatusMatchesTable(s, gid, false);
  }

  /** Power-on of a running unit is refused and writes nothing. */
  lemma PowerOnRunningIsRefused(s: State, gid: Gid, members: int, now: int, getTemp: TempFn)
    requires Coherent(s) && gid in s.table && s.table[gid].isOn
    ensures AirConOn(s, gid, members, now, getTemp) == Step(Err(AlreadyOn), s)
  {
  }

  /** Power-on of a switched-off unit first locks in its off drift, then switches it on. */
  lemma PowerOnAdvancesFirst(s: State, gid: Gid, members: int, now: int, getTemp: TempFn)
    requires Coherent(s) && gid in s.table && !s.table[gid].isOn
    ensures var u := s.table[gid];
            var step := AirConOn(s, gid, members, now, getTemp);
      && step.reply.Ok?
      && step.next.table == s.table[gid := step.reply.value]
      && step.reply.value == u.(isOn := true, lastUpdate := now,
                                nowTemp := OffDrift(u.envTemp as real, u.nowTemp, now - u.lastUpdate))
  {
  }

  /** The joke value is refused by both temperature commands, whatever the state, and nothing changes. */
  lemma SentinelRefused(s: State, gid: Gid, msg: string, now: int, getTemp: TempFn)
    requires Coherent(s)
    ensures var step := SetTargetTemp(s, gid, msg, Some(Sentinel), now, getTemp);
      step.reply.Err? && step.next == s &&
      (gid in s.table && s.table[gid].isOn ==> step.reply.error == JokeValue)
    ensures var step := SetEnvTemp(s, gid, msg, Some(Sentinel), now, getTemp);
      step.reply.Err? && step.next == s &&
      (gid in s.table ==> step.reply.error == JokeValue)
  {
    CheckStatusMatchesTable(s, gid, true);
    CheckStatusMatchesTable(s, gid, false);
  }

  /** An accepted temperature is the parsed integer, within [-273, 999999] and not the joke value. */
  lemma TemperatureArgumentAccepted(s: State, gid: Gid, msg: string, parsed: Option<int>, now: int, getTemp: TempFn)
    requires Coherent(s)
    ensures var step := SetTargetTemp(s, gid, msg, parsed, now, getTemp);
      step.reply.Ok? <==>
        gid in s.table && s.table[gid].isOn && parsed.Some? &&
        TempLow <= parsed.value <= TempHigh && parsed.value != Sentinel
    ensures var step := SetTargetTemp(s, gid, msg, parsed, now, getTemp);
      step.reply.Ok? ==> step.reply.value == Advance(s.table[gid], now, getTemp).(setTemp := parsed.value)
    ensures var step := SetEnvTemp(s, gid, msg, parsed, now, getTemp);
      step.reply.Ok? <==>
        gid in s.table && parsed.Some? && TempLow <= parsed.value <= TempHigh && parsed.value != Sentinel
    ensures var step := SetEnvTemp(s, gid, msg, parsed, now, getTemp);
      step.reply.Ok? ==>
        step.next.table == s.table[gid := step.reply.value] &&
        step.reply.value == Advance(s.table[gid], now, getTemp).(envTemp := parsed.value)
  {
    CheckStatusMatchesTable(s, gid, true);
    CheckStatusMatchesTable(s, gid, false);
  }

  /** Fan speed is refused for a non-home unit before the argument is looked at; an accepted speed is stored as 0, 1 or 2. */
  lemma FanSpeedRules(s: State, gid: Gid, msg: string, parsed: Option<int>, now: int, getTemp: TempFn)
    requires Coherent(s)
    ensures var step := SetWindRate(s, gid, msg, parsed, now, getTemp);
      gid in s.table && s.table[gid].isOn && s.table[gid].acType != Home ==>
        step == Step(Err(NotHomeTier), s)
    ensures var step := SetWindRate(s, gid, msg, parsed, now, getTemp);
      step.reply.Ok? ==> 0 <= step.reply.value.windRate <= 2
    ensures var step := SetWindRate(s, gid, msg, parsed, now, getTemp);
      step.reply.Ok? ==>
        step.reply.value == Advance(s.table[gid], now, getTemp).(windRate := step.reply.value.windRate)
    ensures var step := SetWindRate(s, gid, msg, parsed, now, getTemp);
      step.reply.Ok? && msg != [] && msg[0] in FanWords ==> step.reply.value.windRate == FanWords[msg[0]] - 1
    ensures var step := SetWindRate(s, gid, msg, parsed, now, getTemp);
      step.reply.Ok? && msg != [] && msg[0] !in FanWords ==> step.reply.value.windRate == parsed.value - 1
  {
    CheckStatusMatchesTable(s, gid, true);
    CheckRangeBounds(msg, parsed, FanLow, FanHigh, FanWords);
  }

  /** Upgrade succeeds exactly on a home unit and makes it central. */
  lemma UpgradeBounded(s: State, gid: Gid, now: int, getTemp: TempFn)
    requires Coherent(s)
    ensures var step := UpgradeAirCon(s, gid, now, getTemp);
      (step.reply.Ok? <==> gid in s.table && s.table[gid].acType == Home) &&
      (step.reply.Ok? ==> step.next.table == s.table[gid := step.reply.value] &&
                          step.reply.value.acType == s.table[gid].acType + 1 == Central &&
                          step.reply.value == Advance(s.table[gid], now, getTemp).(acType := Central)) &&
      (gid in s.table && s.table[gid].acType == Central ==> step == Step(Err(HighestTier), s))
  {
    CheckStatusMatchesTable(s, gid, false);
  }

  /** Downgrade succeeds exactly on a central unit and makes it home. */
  lemma DowngradeBounded(s: State, gid: Gid, now: int, getTemp: TempFn)
    requires Coherent(s)
    ensures var step := DowngradeAirCon(s, gid, now, getTemp);
      (step.reply.Ok? <==> gid in s.table && s.table[gid].acType == Central) &&
      (step.reply.Ok? ==> step.next.table == s.table[gid := step.reply.value] &&
                          step.reply.value.acType == s.table[gid].acType - 1 == Home &&
                          step.reply.value == Advance(s.table[gid], now, getTemp).(acType := Home)) &&
      (gid in s.table && s.table[gid].acType == Home ==> step == Step(Err(LowestTier), s))
  {
    CheckStatusMatchesTable(s, gid, false);
  }

  /**
   * Power-off, set-target and set-fan-speed change only the copy they show:
   * the table they write is the one they started from.
   */
  lemma CopyChangesAreLost(s: State, gid: Gid, msg: string, parsed: Option<int>, now: int, getTemp: TempFn)
    requires Coherent(s)
    ensures AirConOff(s, gid, now, getTemp).next.table == s.table
    ensures SetTargetTemp(s, gid, msg, parsed, now, getTemp).next.table == s.table
    ensures SetWindRate(s, gid, msg, parsed, now, getTemp).next.table == s.table
  {
  }

  /**
   * Power-off, as written and corrected, is accepted exactly for an installed,
   * running unit; the shown unit is the fresh copy advanced to now and switched off.
   */
  lemma PowerOffRules(s: State, gid: Gid, now: int, getTemp: TempFn)
    requires Coherent(s)
    ensures var step := AirConOff(s, gid, now, getTemp);
      && (step.reply.Ok? <==> gid in s.table && s.table[gid].isOn)
      && (gid !in s.table ==> step.reply == Err(NotInstalled))
      && (gid in s.table && !s.table[gid].isOn ==> step.reply == Err(NotRunning))
      && (step.reply.Ok? ==> step.reply.value == Advance(s.table[gid], now, getTemp).(isOn := false))
    ensures AirConOffFixed(s, gid, now, getTemp).reply.Ok? <==> gid in s.table && s.table[gid].isOn
  {
    CheckStatusMatchesTable(s, gid, true);
  }

  /** Fan speed, as written and corrected, is accepted exactly for a running home unit whose argument check_range accepts. */
  lemma FanSpeedAccepted(s: State, gid: Gid, msg: string, parsed: Option<int>, now: int, getTemp: TempFn)
    requires Coherent(s)
    ensures SetWindRate(s, gid, msg, parsed, now, getTemp).reply.Ok? <==>
              gid in s.table && s.table[gid].isOn && s.table[gid].acType == Home &&
              CheckRange(msg, parsed, FanLow, FanHigh, FanWords).Ok?
    ensures SetWindRateFixed(s, gid, msg, parsed, now, getTemp).reply.Ok? <==>
              gid in s.table && s.table[gid].isOn && s.table[gid].acType == Home &&
              CheckRange(msg, parsed, FanLow, FanHigh, FanWords).Ok?
  {
    CheckStatusMatchesTable(s, gid, true);
  }

  /** The corrected set-target is accepted under the same conditions as the one as written. */
  lemma SetTargetFixedAccepted(s: State, gid: Gid, msg: string, parsed: Option<int>, now: int, getTemp: TempFn)
    requires Coherent(s)
    ensures SetTargetTempFixed(s, gid, msg, parsed, now, getTemp).reply.Ok? <==>
              gid in s.table && s.table[gid].isOn && parsed.Some? &&
              TempLow <= parsed.value <= TempHigh && parsed.value != Sentinel
  {
    CheckStatusMatchesTable(s, gid, true);
  }

  /** After an accepted power-off the unit is shown off, yet the next status check still finds it running. */
  lemma PowerOffIsLost(s: State, gid: Gid, now: int, getTemp: TempFn)
    requires Coherent(s)
    ensures var step := AirConOff(s, gid, now, getTemp);
      step.reply.Ok? ==>
        !step.reply.value.isOn &&
        step.next.table == s.table &&
        CheckStatus(step.next.store, gid, true) == Ok(s.table[gid]) && s.table[gid].isOn
  {
    CheckStatusMatchesTable(s, gid, true);
    var step := AirConOff(s, gid, now, getTemp);
    if step.reply.Ok? {
      WriteCoherent(s.table);
      CheckStatusMatchesTable(step.next, gid, true);
    }
  }

  /** After an accepted set-target the shown target differs from the one kept whenever the value is new. */
  lemma SetTargetIsLost(s: State, gid: Gid, msg: string, parsed: Option<int>, now: int, getTemp: TempFn)
    requires Coherent(s)
    ensures var step := SetTargetTemp(s, gid, msg, parsed, now, getTemp);
      step.reply.Ok? ==>
        step.next.table[gid].setTemp == s.table[gid].setTemp &&
        (parsed.value != s.table[gid].setTemp ==> step.next.table[gid].setTemp != step.reply.value.setTemp)
  {
    TemperatureArgumentAccepted(s, gid, msg, parsed, now, getTemp);
  }

  /** After an accepted fan speed change the kept speed is the old one. */
  lemma SetWindRateIsLost(s: State, gid: Gid, msg: string, parsed: Option<int>, now: int, getTemp: TempFn)
    requires Coherent(s)
    ensures var step := SetWindRate(s, gid, msg, parsed, now, getTemp);
      step.reply.Ok? ==>
        step.next.table[gid].windRate == s.table[gid].windRate &&
        (step.reply.value.windRate != s.table[gid].windRate ==>
           step.next.table[gid].windRate != step.reply.value.windRate)
  {
    CheckStatusMatchesTable(s, gid, true);
  }

  /** Consequence of the lost power-off: a unit running in the table stays running under every command. */
  lemma {:induction false} RunningUnitStaysOn(s: State, gid: Gid, cmd: Command, now: int, getTemp: TempFn, g: Gid)
    requires Coherent(s) && g in s.table && s.table[g].isOn
    ensures var next := Apply(s, gid, cmd, now, getTemp).next;
      g in next.table && next.table[g].isOn
  {
    StepTouchesOnlyItsGroup(s, gid, cmd, now, getTemp);
    CheckStatusMatchesTable(s, gid, false);
  }

  /** Power off as evidently intended: the table's unit is switched off. */
  function AirConOffFixed(s: State, gid: Gid, now: int, getTemp: TempFn): (step: Step)
    requires Coherent(s)
    ensures step.reply.Err? ==> step.next == s
    ensures step.reply.Ok? ==> !step.reply.value.isOn && step.next == Write(s.table[gid := step.reply.value])
  {
    match CheckStatus(s.store, gid, true)
    case Err(e) => Step(Err(e), s)
    case Ok(_) =>
      var u := Advance(s.table[gid], now, getTemp).(isOn := false);
      Step(Ok(u), Write(s.table[gid := u]))
  }

  /** Set target as evidently intended: the table's unit gets the target. */
  function SetTargetTempFixed(s: State, gid: Gid, msg: string, parsed: Option<int>, now: int, getTemp: TempFn): (step: Step)
    requires Coherent(s)
    ensures step.reply.Err? ==> step.next == s
    ensures step.reply.Ok? ==>
              parsed.Some? && step.reply.value.setTemp == parsed.value &&
              step.next == Write(s.table[gid := step.reply.value])
  {
    match CheckStatus(s.store, gid, true)
    case Err(e) => Step(Err(e), s)
    case Ok(_) =>
      match CheckRange(msg, parsed, TempLow, TempHigh, map[])
      case Err(e) => Step(Err(e), s)
      case Ok(v) =>
        if v == Sentinel then Step(Err(JokeValue), s)
        else
          var u := Advance(s.table[gid], now, getTemp).(setTemp := v);
          Step(Ok(u), Write(s.table[gid := u]))
  }

  /** Set fan speed as evidently intended: the table's unit gets the speed. */
  function SetWindRateFixed(s: State, gid: Gid, msg: string, parsed: Option<int>, now: int, getTemp: TempFn): (step: Step)
    requires Coherent(s)
    ensures step.reply.Err? ==> step.next == s
    ensures step.reply.Ok? ==> step.reply.value.acType == Home && step.next == Write(s.table[gid := step.reply.value])
  {
    match CheckStatus(s.store, gid, true)
    case Err(e) => Step(Err(e), s)
    case Ok(_) =>
      if s.table[gid].acType != Home then Step(Err(NotHomeTier), s)
      else
        match CheckRange(msg, parsed, FanLow, FanHigh, FanWords)
        case Err(e) => Step(Err(e), s)
        case Ok(v) =>
          var u := Advance(s.table[gid], now, getTemp).(windRate := v - 1);
          Step(Ok(u), Write(s.table[gid := u]))
  }

  /** The intended power-off keeps the state coherent, and the next status check reports the unit not running. */
  lemma PowerOffFixedTakesEffect(s: State, gid: Gid, now: int, getTemp: TempFn)
    requires Coherent(s)
    ensures var step := AirConOffFixed(s, gid, now, getTemp);
      Coherent(step.next) &&
      (step.reply.Ok? ==>
         step.next.table == s.table[gid := step.reply.value] &&
         step.reply.value == Advance(s.table[gid], now, getTemp).(isOn := false) &&
         CheckStatus(step.next.store, gid, true) == Err(NotRunning))
  {
    CheckStatusMatchesTable(s, gid, true);
    var step := AirConOffFixed(s, gid, now, getTemp);
    if step.reply.Ok? {
      WriteUpdatedCoherent(s, gid, step.reply.value);
      CheckStatusMatchesTable(step.next, gid, true);
    }
  }

  /** The intended set-target keeps the state coherent and the table holds the accepted target. */
  lemma SetTargetFixedTakesEffect(s: State, gid: Gid, msg: string, parsed: Option<int>, now: int, getTemp: TempFn)
    requires Coherent(s)
    ensures var step := SetTargetTempFixed(s, gid, msg, parsed, now, getTemp);
      Coherent(step.next) &&
      (step.reply.Ok? ==>
         step.next.table == s.table[gid := step.reply.value] &&
         step.reply.value == Advance(s.table[gid], now, getTemp).(setTemp := parsed.value) &&
         TempLow <= parsed.value <= TempHigh && parsed.value != Sentinel)
  {
    CheckStatusMatchesTable(s, gid, true);
    var step := SetTargetTempFixed(s, gid, msg, parsed, now, getTemp);
    if step.reply.Ok? {
      WriteUpdatedCoherent(s, gid, step.reply.value);
    }
  }

  /** The intended set-fan-speed keeps the state coherent and the table holds the accepted speed. */
  lemma SetWindRateFixedTakesEffect(s: State, gid: Gid, msg: string, parsed: Option<int>, now: int, getTemp: TempFn)
    requires Coherent(s)
    ensures var step := SetWindRateFixed(s, gid, msg, parsed, now, getTemp);
      Coherent(step.next) &&
      (step.reply.Ok? ==>
         step.next.table == s.table[gid := step.reply.value] && 0 <= step.reply.value.windRate <= 2 &&
         var requested := if msg != [] && msg[0] in FanWords then FanWords[msg[0]] else parsed.value;
         step.reply.value == Advance(s.table[gid], now, getTemp).(windRate := requested - 1))
  {
    CheckStatusMatchesTable(s, gid, true);
    CheckRangeBounds(msg, parsed, FanLow, FanHigh, FanWords);
    var step := SetWindRateFixed(s, gid, msg, parsed, now, getTemp);
    if step.reply.Ok? {
      WriteUpdatedCoherent(s, gid, step.reply.value);
    }
  }
}

=== FILE: air_con_plugin.dfy ===
/**
 * The plugin's command handlers as methods of one service object. It holds the
 * module-level table of unit records and the persisted store. Every command
 * method is proved to perform the transition of the same name in
 * AirConCommands; the helpers CheckStatus, UpdateAirCon and WriteTable model
 * check_status, update_air_con and write_group_air_con.
 */
module AirConPlugin {
  import opened Wrappers
  import opened AirConUtils
  import opened AirConCommands

  class AirConService {
    /** The temperature physics of a running unit. */
    const getTemp: TempFn
    /** The module-level table: group to unit record. */
    var airCons: map<Gid, Unit>
    /** The persisted file. */
    var store: map<Gid, StoredUnit>

    function Model(): State
      reads this
    {
      State(airCons, store)
    }

    /** The store loads to the table. */
    ghost predicate Valid()
      reads this
    {
      Coherent(Model())
    }

    /** Start-up: the table is loaded once from the store. */
    constructor (initial: map<Gid, StoredUnit>, getTemp: TempFn)
      ensures Valid()
      ensures Model() == Init(initial) && this.getTemp == getTemp
    {
      var loaded := LoadStore(initial);
      this.getTemp := getTemp;
      airCons := loaded;
      store := initial;
    }

    /** check_status: a fresh record for the group, loaded from the store. */
    method CheckStatus(gid: Gid, needOn: bool) returns (r: Result<Unit, Failure>)
      ensures r == AirConUtils.CheckStatus(store, gid, needOn)
    {
      var loaded := LoadStore(store);
      if gid !in loaded {
        return Err(NotInstalled);
      }
      if needOn && !loaded[gid].isOn {
        return Err(NotRunning);
      }
      return Ok(loaded[gid]);
    }

    /** update_air_con on the table's record of the group. */
    method UpdateAirCon(gid: Gid, now: int)
      requires gid in airCons && InRange(airCons[gid])
      modifies this`airCons
      ensures airCons == old(airCons)[gid := Advance(old(airCons)[gid], now, getTemp)]
      ensures InRange(airCons[gid])
    {
      airCons := airCons[gid := Advance(airCons[gid], now, getTemp)];
    }

    /** write_group_air_con(air_cons): the whole table replaces the store. */
    method WriteTable()
      requires AllInRange(airCons)
      modifies this`store
      ensures Model() == Write(airCons) && Valid()
    {
      store := Persist(airCons);
      WriteCoherent(airCons);
    }

    /** air_con_on: install a unit for a new group, or switch the group's unit on. */
    method AirConOn(gid: Gid, members: int, now: int) returns (reply: Result<Unit, Failure>)
      requires Valid()
      modifies this`airCons, this`store
      ensures Valid()
      ensures Step(reply, Model()) == AirConCommands.AirConOn(old(Model()), gid, members, now, getTemp)
    {
      CheckStatusMatchesTable(Model(), gid, true);
      if gid !in airCons {
        airCons := airCons[gid := NewAirCon(members, now)];
      } else if airCons[gid].isOn {
        return Err(AlreadyOn);
      }
      ghost var v := Advance(airCons[gid], now, getTemp).(isOn := true);
      UpdateAirCon(gid, now);
      airCons := airCons[gid := airCons[gid].(isOn := true)];
      assert airCons == old(airCons)[gid := v];
      assert AirConCommands.AirConOn(old(Model()), gid, members, now, getTemp) == Step(Ok(v), Write(airCons));
      UpdatedInRange(old(airCons), gid, airCons[gid]);
      WriteTable();
      reply := Ok(airCons[gid]);
    }

    /** air_con_off, as written: the checked copy is switched off, the unchanged table is written. */
    method AirConOff(gid: Gid, now: int) returns (reply: Result<Unit, Failure>)
      requires Valid()
      modifies this`store
      ensures Valid()
      ensures Step(reply, Model()) == AirConCommands.AirConOff(old(Model()), gid, now, getTemp)
    {
      var status := CheckStatus(gid, true);
      if status.Err? {
        return Err(status.error);
      }
      var copy := status.value;
      copy := Advance(copy, now, getTemp);
      copy := copy.(isOn := false);
      WriteTable();
      reply := Ok(copy);
    }

    /** now_temp: the table's unit is advanced to the current time. */
    method AirConNow(gid: Gid, now: int) returns (reply: Result<Unit, Failure>)
      requires Valid()
      modifies this`airCons, this`store
      ensures Valid()
      ensures Step(reply, Model()) == AirConCommands.AirConNow(old(Model()), gid, now, getTemp)
    {
      CheckStatusMatchesTable(Model(), gid, false);
      var status := CheckStatus(gid, false);
      if status.Err? {
        return Err(status.error);
      }
      ghost var v := Advance(airCons[gid], now, getTemp);
      UpdateAirCon(gid, now);
      assert AirConCommands.AirConNow(old(Model()), gid, now, getTemp) == Step(Ok(v), Write(airCons));
      UpdatedInRange(old(airCons), gid, airCons[gid]);
      WriteTable();
      reply := Ok(airCons[gid]);
    }

    /** set_temp, as written: the checked copy gets the target, the unchanged table is written. */
    method SetTargetTemp(gid: Gid, msg: string, parsed: Option<int>, now: int) returns (reply: Result<Unit, Failure>)
      requires Valid()
      modifies this`store
      ensures Valid()
      ensures Step(reply, Model()) == AirConCommands.SetTargetTemp(old(Model()), gid, msg, parsed, now, getTemp)
    {
      var status := CheckStatus(gid, true);
      if status.Err? {
        return Err(status.error);
      }
      var copy := status.value;
      var checked := CheckRange(msg, parsed, TempLow, TempHigh, map[]);
      if checked.Err? {
        return Err(checked.error);
      }
      if checked.value == Sentinel {
        return Err(JokeValue);
      }
      copy := Advance(copy, now, getTemp);
      copy := copy.(setTemp := checked.value);
      WriteTable();
      reply := Ok(copy);
    }

    /** set_wind_rate, as written: the checked copy gets speed - 1, the unchanged table is written. */
    method SetWindRate(gid: Gid, msg: string, parsed: Option<int>, now: int) returns (reply: Result<Unit, Failure>)
      requires Valid()
      modifies this`store
      ensures Valid()
      ensures Step(reply, Model()) == AirConCommands.SetWindRate(old(Model()), gid, msg, parsed, now, getTemp)
    {
      var status := CheckStatus(gid, true);
      if status.Err? {
        return Err(status.error);
      }
      var copy := status.value;
      if copy.acType != Home {
        return Err(NotHomeTier);
      }
      var checked := CheckRange(msg, parsed, FanLow, FanHigh, FanWords);
      if checked.Err? {
        return Err(checked.error);
      }
      copy := Advance(copy, now, getTemp);
      copy := copy.(windRate := checked.value - 1);
      WriteTable();
      reply := Ok(copy);
    }

    /** set_env_temp: the table's unit is advanced and gets the new ambient temperature. */
    method SetEnvTemp(gid: Gid, msg: string, parsed: Option<int>, now: int) returns (reply: Result<Unit, Failure>)
      requires Valid()
      modifies this`airCons, this`store
      ensures Valid()
      ensures Step(reply, Model()) == AirConCommands.SetEnvTemp(old(Model()), gid, msg, parsed, now, getTemp)
    {
      CheckStatusMatchesTable(Model(), gid, false);
      var status := CheckStatus(gid, false);
      if status.Err? {
        return Err(status.error);
      }
      var checked := CheckRange(msg, parsed, TempLow, TempHigh, map[]);
      if checked.Err? {
        return Err(checked.error);
      }
      if checked.value == Sentinel {
        return Err(JokeValue);
      }
      ghost var v := Advance(airCons[gid], now, getTemp).(envTemp := checked.value);
      UpdateAirCon(gid, now);
      airCons := airCons[gid := airCons[gid].(envTemp := checked.value)];
      assert airCons == old(airCons)[gid := v];
      assert AirConCommands.SetEnvTemp(old(Model()), gid, msg, parsed, now, getTemp) == Step(Ok(v), Write(airCons));
      UpdatedInRange(old(airCons), gid, airCons[gid]);
      WriteTable();
      reply := Ok(airCons[gid]);
    }

    /** show_air_con_type: the tier of the table's unit; nothing changes. */
    method ShowAirConType(gid: Gid) returns (reply: Result<int, Failure>)
      requires Valid()
      ensures reply == AirConCommands.ShowAirConType(Model(), gid)
    {
      CheckStatusMatchesTable(Model(), gid, false);
      var status := CheckStatus(gid, false);
      if status.Err? {
        return Err(status.error);
      }
      reply := Ok(airCons[gid].acType);
    }

    /** upgrade_air_con: the table's unit moves one tier up. */
    method UpgradeAirCon(gid: Gid, now: int) returns (reply: Result<Unit, Failure>)
      requires Valid()
      modifies this`airCons, this`store
      ensures Valid()
      ensures Step(reply, Model()) == AirConCommands.UpgradeAirCon(old(Model()), gid, now, getTemp)
    {
      CheckStatusMatchesTable(Model(), gid, false);
      var status := CheckStatus(gid, false);
      if status.Err? {
        return Err(status.error);
      }
      var acType := airCons[gid].acType;
      if acType == TierCount - 1 {
        return Err(HighestTier);
      }
      ghost var v := Advance(airCons[gid], now, getTemp).(acType := acType + 1);
      UpdateAirCon(gid, now);
      acType := acType + 1;
      airCons := airCons[gid := airCons[gid].(acType := acType)];
      assert airCons == old(airCons)[gid := v];
      assert AirConCommands.UpgradeAirCon(old(Model()), gid, now, getTemp) == Step(Ok(v), Write(airCons));
      UpdatedInRange(old(airCons), gid, airCons[gid]);
      WriteTable();
      reply := Ok(airCons[gid]);
    }

    /** downgrade_air_con: the table's unit moves one tier down. */
    method DowngradeAirCon(gid: Gid, now: int) returns (reply: Result<Unit, Failure>)
      requires Valid()
      modifies this`airCons, this`store
      ensures Valid()
      ensures Step(reply, Model()) == AirConCommands.DowngradeAirCon(old(Model()), gid, now, getTemp)
    {
      CheckStatusMatchesTable(Model(), gid, false);
      var status := CheckStatus(gid, false);
      if status.Err? {
        return Err(status.error);
      }
      var acType := airCons[gid].acType;
      if acType == 0 {
        return Err(LowestTier);
      }
      ghost var v := Advance(airCons[gid], now, getTemp).(acType := acType - 1);
      UpdateAirCon(gid, now);
      acType := acType - 1;
      airCons := airCons[gid := airCons[gid].(acType := acType)];
      assert airCons == old(airCons)[gid := v];
      assert AirConCommands.DowngradeAirCon(old(Model()), gid, now, getTemp) == Step(Ok(v), Write(airCons));
      UpdatedInRange(old(airCons), gid, airCons[gid]);
      WriteTable();
      reply := Ok(airCons[gid]);
    }
  }
}

=== FILE: air_con_utils.dfy ===
/**
 * The air-conditioner unit of one chat group and the helpers that act on it:
 * the persisted record and its self-healing load, unit creation, the checks
 * run before every command, and the lazy temperature update.
 *
 * The physics of a running unit (get_temp) is not modelled: it is a parameter
 * of type TempFn. The clock is a parameter too: `now` is the current second.
 */
module AirConUtils {
  import opened Wrappers

  /** A chat group's identifier. */
  type Gid = string

  /** get_temp(room volume, airflow per second, target, current temperature,
      elapsed seconds, power) gives the new room temperature. */
  type TempFn = (int, real, int, real, int, int) -> real

  const UnitVolume: int := 2              // room volume per group member
  const MinVolume: int := 20              // smallest room volume
  const OffRate: real := 0.05             // degrees per second while the unit is off
  const HomeAirflow: seq<real> := [0.178, 0.213, 0.267]  // by fan speed
  const HomePower: seq<int> := [5000, 6000, 7500]        // by fan speed
  const CentralPower: int := 7500         // per central unit
  const CentralAirflow: real := 0.577     // per central unit
  const CentralUnitVolume: int := 100     // room volume served by one central unit
  const Home: int := 0                    // tier of a home unit
  const Central: int := 1                 // tier of a central unit

  const DefaultSetTemp: int := 26
  const DefaultNowTemp: int := 33

  /** What a command reports instead of changing anything. */
  datatype Failure =
    | NotInstalled   // no unit for the group
    | NotRunning     // the unit is off and the command needs it on
    | NoArgument     // empty argument where a word table applies (indexing its first character fails)
    | NotAnInteger   // the argument does not parse as an integer
    | OutOfRange     // the integer lies outside the allowed range
    | JokeValue      // the sentinel 114514, refused with a joke
    | AlreadyOn      // power-on of a running unit
    | NotHomeTier    // fan speed of a central unit
    | HighestTier    // upgrade of a central unit
    | LowestTier     // downgrade of a home unit

  /** A unit as held in memory after loading: every ranged field is present. */
  datatype Unit = Unit(
    isOn: bool,
    envTemp: int,
    nowTemp: real,
    setTemp: int,
    lastUpdate: int,
    volume: int,
    windRate: int,
    balance: int,
    acType: int)

  /** A unit as the store holds it: a ranged field may be missing. */
  datatype StoredUnit = StoredUnit(
    isOn: bool,
    envTemp: Option<int>,
    nowTemp: real,
    setTemp: Option<int>,
    lastUpdate: int,
    volume: int,
    windRate: Option<int>,
    balance: Option<int>,
    acType: Option<int>)

  /** The fields that loading forces into a range. */
  datatype Item = SetTemp | EnvTemp | WindRate | Balance | AcType

  /** Inclusive bounds and the value that replaces a missing or stray one. */
  datatype Range = Range(low: int, high: int, default: int)

  /** The order in which loading visits the ranged fields. */
  const RequiredItems: seq<Item> := [SetTemp, EnvTemp, WindRate, Balance, AcType]

  function RangeOf(item: Item): (r: Range)
    ensures r.low <= r.default <= r.high
  {
    match item
    case SetTemp => Range(-273, 999999, DefaultSetTemp)
    case EnvTemp => Range(-273, 999999, DefaultNowTemp)
    case WindRate => Range(0, 2, 0)
    case Balance => Range(-1000000, 1000000, 0)
    case AcType => Range(0, 1, Home)
  }

  /** Position of an item in RequiredItems. */
  function ItemIndex(item: Item): nat
  {
    match item
    case SetTemp => 0
    case EnvTemp => 1
    case WindRate => 2
    case Balance => 3
    case AcType => 4
  }

  predicate Accepts(r: Range, x: int)
  {
    r.low <= x <= r.high
  }

  function Field(u: Unit, item: Item): int
  {
    match item
    case SetTemp => u.setTemp
    case EnvTemp => u.envTemp
    case WindRate => u.windRate
    case Balance => u.balance
    case AcType => u.acType
  }

  /** The stored value of a ranged field, if the record has one. */
  function Lookup(s: StoredUnit, item: Item): Option<int>
  {
    match item
    case SetTemp => s.setTemp
    case EnvTemp => s.envTemp
    case WindRate => s.windRate
    case Balance => s.balance
    case AcType => s.acType
  }

  /** The record with one ranged field set. */
  function Assign(s: StoredUnit, item: Item, x: int): (t: StoredUnit)
    ensures Lookup(t, item) == Some(x)
    ensures forall other :: other != item ==> Lookup(t, other) == Lookup(s, other)
    ensures t.isOn == s.isOn && t.nowTemp == s.nowTemp && t.lastUpdate == s.lastUpdate && t.volume == s.volume
  {
    match item
    case SetTemp => s.(setTemp := Some(x))
    case EnvTemp => s.(envTemp := Some(x))
    case WindRate => s.(windRate := Some(x))
    case Balance => s.(balance := Some(x))
    case AcType => s.(acType := Some(x))
  }

  /** Every ranged field lies in its range. */
  predicate InRange(u: Unit)
  {
    && Accepts(RangeOf(SetTemp), u.setTemp)
    && Accepts(RangeOf(EnvTemp), u.envTemp)
    && Accepts(RangeOf(WindRate), u.windRate)
    && Accepts(RangeOf(Balance), u.balance)
    && Accepts(RangeOf(AcType), u.acType)
  }

  /** InRange is the range condition of every item loading visits. */
  lemma InRangeEveryItem(u: Unit)
    ensures InRange(u) <==> forall item :: Accepts(RangeOf(item), Field(u, item))
  {
    if InRange(u) {
      forall item ensures Accepts(RangeOf(item), Field(u, item)) {
        match item
        case SetTemp =>
        case EnvTemp =>
        case WindRate =>
        case Balance =>
        case AcType =>
      }
    } else {
      assert !Accepts(RangeOf(SetTemp), Field(u, SetTemp)) || !Accepts(RangeOf(EnvTemp), Field(u, EnvTemp))
          || !Accepts(RangeOf(WindRate), Field(u, WindRate)) || !Accepts(RangeOf(Balance), Field(u, Balance))
          || !Accepts(RangeOf(AcType), Field(u, AcType));
    }
  }

  /** A ranged field after loading: kept when present and in range, else the default. */
  function RepairValue(v: Option<int>, r: Range): (x: int)
    requires Accepts(r, r.default)
    ensures Accepts(r, x)
    ensures v.Some? && Accepts(r, v.value) ==> x == v.value
  {
    if v.None? || !Accepts(r, v.value) then r.default else v.value
  }

  /** A stored record after the repair pass of loading. */
  function Repaired(s: StoredUnit): (u: Unit)
    ensures InRange(u)
    ensures u.isOn == s.isOn && u.nowTemp == s.nowTemp && u.lastUpdate == s.lastUpdate && u.volume == s.volume
  {
    Unit(s.isOn,
         RepairValue(s.envTemp, RangeOf(EnvTemp)),
         s.nowTemp,
         RepairValue(s.setTemp, RangeOf(SetTemp)),
         s.lastUpdate,
         s.volume,
         RepairValue(s.windRate, RangeOf(WindRate)),
         RepairValue(s.balance, RangeOf(Balance)),
         RepairValue(s.acType, RangeOf(AcType)))
  }

  /** Loading keeps every listed field that is present and in range and defaults the others. */
  lemma RepairedFields(s: StoredUnit, item: Item)
    ensures Lookup(s, item).Some? && Accepts(RangeOf(item), Lookup(s, item).value) ==>
              Field(Repaired(s), item) == Lookup(s, item).value
    ensures Lookup(s, item).None? || !Accepts(RangeOf(item), Lookup(s, item).value) ==>
              Field(Repaired(s), item) == RangeOf(item).default
  {
  }

  /** The record written for a unit: every field present. */
  function ToStored(u: Unit): StoredUnit
  {
    StoredUnit(u.isOn, Some(u.envTemp), u.nowTemp, Some(u.setTemp), u.lastUpdate,
               u.volume, Some(u.windRate), Some(u.balance), Some(u.acType))
  }

  /** Writing a unit whose fields are in range and loading it back gives the unit. */
  lemma RepairKeepsHealthy(u: Unit)
    requires InRange(u)
    ensures Repaired(ToStored(u)) == u
  {
    var s := ToStored(u);
    assert forall item :: Lookup(s, item) == Some(Field(u, item));
  }

  /** Repairing a record a second time changes nothing. */
  lemma RepairIdempotent(s: StoredUnit)
    ensures Repaired(ToStored(Repaired(s))) == Repaired(s)
  {
    RepairKeepsHealthy(Repaired(s));
  }

  /** The repair pass over one record: the inner loop of the load. */
  method RepairRecord(s: StoredUnit) returns (u: Unit)
    ensures u == Repaired(s)
  {
    var record := s;
    for k := 0 to |RequiredItems|
      invariant forall item :: ItemIndex(item) < k ==>
                  Lookup(record, item) == Some(Field(Repaired(s), item))
      invariant forall item :: k <= ItemIndex(item) ==> Lookup(record, item) == Lookup(s, item)
      invariant record.isOn == s.isOn && record.nowTemp == s.nowTemp
      invariant record.lastUpdate == s.lastUpdate && record.volume == s.volume
    {
      var item := RequiredItems[k];
      assert ItemIndex(item) == k;
      var range := RangeOf(item);
      var present := Lookup(record, item);
      if present.None? || !Accepts(range, present.value) {
        record := Assign(record, item, range.default);
      }
    }
    assert forall item :: Lookup(record, item) == Some(Field(Repaired(s), item));
    assert Lookup(record, SetTemp).Some? && Lookup(record, EnvTemp).Some? && Lookup(record, WindRate).Some?;
    assert Lookup(record, Balance).Some? && Lookup(record, AcType).Some?;
    u := Unit(record.isOn, record.envTemp.value, record.nowTemp, record.setTemp.value,
              record.lastUpdate, record.volume, record.windRate.value, record.balance.value,
              record.acType.value);
    assert forall item :: Field(u, item) == Field(Repaired(s), item);
  }

  /** The whole store after loading. */
  function LoadAll(store: map<Gid, StoredUnit>): (loaded: map<Gid, Unit>)
    ensures loaded.Keys == store.Keys
    ensures forall g :: g in loaded ==> InRange(loaded[g])
  {
    map g | g in store :: Repaired(store[g])
  }

  /** Loading the store: every record goes through the repair pass. */
  method LoadStore(store: map<Gid, StoredUnit>) returns (loaded: map<Gid, Unit>)
    ensures loaded == LoadAll(store)
  {
    loaded := map[];
    var pending := store.Keys;
    while pending != {}
      invariant pending <= store.Keys
      invariant loaded.Keys == store.Keys - pending
      invariant forall g :: g in loaded ==> loaded[g] == Repaired(store[g])
      decreases pending
    {
      var g :| g in pending;
      var u := RepairRecord(store[g]);
      loaded := loaded[g := u];
      pending := pending - {g};
    }
  }

  function Abs(x: real): real
  {
    if x < 0.0 then -x else x
  }

  /** The sign of a number. */
  function Sgn(x: real): (r: int)
    ensures -1 <= r <= 1
    ensures r as real * x == Abs(x)
    ensures r == 0 <==> x == 0.0
  {
    if x > 0.0 then 1 else if x < 0.0 then -1 else 0
  }

  /** A unit installed for a group of numMember members at second now. */
  function NewAirCon(numMember: int, now: int): (u: Unit)
    ensures InRange(u) && u.isOn
    ensures u.volume >= MinVolume && u.volume >= numMember * UnitVolume
    ensures u.volume == MinVolume || u.volume == numMember * UnitVolume
    ensures u.envTemp == DefaultNowTemp && u.nowTemp == DefaultNowTemp as real
    ensures u.setTemp == DefaultSetTemp && u.windRate == 0 && u.balance == 0 && u.acType == Home
    ensures u.lastUpdate == now
  {
    var volume := if numMember * UnitVolume > MinVolume then numMember * UnitVolume else MinVolume;
    Unit(true, DefaultNowTemp, DefaultNowTemp as real, DefaultSetTemp, now, volume, 0, 0, Home)
  }

  /**
   * Validation of a command argument. msg is the stripped argument and parsed
   * the result of parsing it as an integer. A non-empty special table maps a
   * leading character straight to a value.
   */
  function CheckRange(msg: string, parsed: Option<int>, low: int, high: int, special: map<char, int>)
    : (r: Result<int, Failure>)
    ensures |special| > 0 && msg != [] && msg[0] in special ==> r == Ok(special[msg[0]])
    ensures |special| > 0 && msg == [] ==> r == Err(NoArgument)
    ensures |special| == 0 || (msg != [] && msg[0] !in special) ==>
              (r.Ok? <==> parsed.Some? && low <= parsed.value <= high) &&
              (r.Ok? ==> r.value == parsed.value) &&
              (parsed.None? ==> r == Err(NotAnInteger)) &&
              (parsed.Some? && !(low <= parsed.value <= high) ==> r == Err(OutOfRange))
  {
    if |special| > 0 && msg == [] then Err(NoArgument)
    else if |special| > 0 && msg[0] in special then Ok(special[msg[0]])
    else if parsed.None? then Err(NotAnInteger)
    else if !(low <= parsed.value <= high) then Err(OutOfRange)
    else Ok(parsed.value)
  }

  /** A value check_range accepts lies in range when every special value does. */
  lemma CheckRangeBounds(msg: string, parsed: Option<int>, low: int, high: int, special: map<char, int>)
    requires forall c :: c in special ==> low <= special[c] <= high
    ensures CheckRange(msg, parsed, low, high, special).Ok? ==>
              low <= CheckRange(msg, parsed, low, high, special).value <= high
  {
  }

  /** The status check: the group's unit from a fresh load of the store. */
  function CheckStatus(store: map<Gid, StoredUnit>, gid: Gid, needOn: bool): (r: Result<Unit, Failure>)
    ensures r == Err(NotInstalled) <==> gid !in store
    ensures r == Err(NotRunning) <==> gid in store && needOn && !store[gid].isOn
    ensures r.Ok? ==> gid in store && r.value == Repaired(store[gid]) && InRange(r.value)
    ensures r.Ok? || r == Err(NotInstalled) || r == Err(NotRunning)
  {
    var loaded := LoadAll(store);
    if gid !in loaded then Err(NotInstalled)
    else if needOn && !loaded[gid].isOn then Err(NotRunning)
    else Ok(loaded[gid])
  }

  function Min(x: real, y: real): real
  {
    if x <= y then x else y
  }

  function Max(x: real, y: real): real
  {
    if x <= y then y else x
  }

  /** Moving dist degrees from `from` toward target, stopping at target. */
  function DriftToward(target: real, from: real, dist: real): real
  {
    if from <= target then Min(from + dist, target) else Max(from - dist, target)
  }

  /**
   * The temperature of a switched-off unit after elapsed seconds: it moves
   * toward the ambient temperature at OffRate and is clamped to it when the
   * step overshoots.
   */
  function OffDrift(env: real, now: real, elapsed: int): (t: real)
    ensures elapsed >= 0 && now <= env ==> now <= t <= env
    ensures elapsed >= 0 && env <= now ==> env <= t <= now
    ensures now == env ==> t == env
    ensures elapsed == 0 ==> t == now
  {
    var direction := Sgn(env - now);
    var t := now + direction as real * elapsed as real * OffRate;
    if (env - now) * (env - t) < 0.0 then env else t
  }

  /** Off drift is the clamped move toward ambient by elapsed * OffRate degrees. */
  lemma OffDriftIsDriftToward(env: real, now: real, elapsed: int)
    requires elapsed >= 0
    ensures OffDrift(env, now, elapsed) == DriftToward(env, now, elapsed as real * OffRate)
  {
    var d := elapsed as real * OffRate;
    if now < env {
      assert Sgn(env - now) == 1;
      assert now + 1 as real * elapsed as real * OffRate == now + d;
    } else if env < now {
      assert Sgn(env - now) == -1;
      assert now + (-1) as real * elapsed as real * OffRate == now - d;
    }
  }

  /** Two clamped moves toward a target add up to one. */
  lemma DriftTowardAdditive(target: real, from: real, d1: real, d2: real)
    requires d1 >= 0.0 && d2 >= 0.0
    ensures DriftToward(target, DriftToward(target, from, d1), d2) == DriftToward(target, from, d1 + d2)
  {
  }

  /** Advancing a switched-off unit twice, over a then b seconds, is one advance over a + b seconds. */
  lemma {:induction false} OffDriftAdditive(env: real, now: real, a: int, b: int)
    requires a >= 0 && b >= 0
    ensures OffDrift(env, OffDrift(env, now, a), b) == OffDrift(env, now, a + b)
  {
    OffDriftIsDriftToward(env, now, a);
    OffDriftIsDriftToward(env, OffDrift(env, now, a), b);
    OffDriftIsDriftToward(env, now, a + b);
    DriftTowardAdditive(env, now, a as real * OffRate, b as real * OffRate);
    assert a as real * OffRate + b as real * OffRate == (a + b) as real * OffRate;
  }

  /** Once the elapsed drift covers the gap, a switched-off unit sits exactly at ambient. */
  lemma OffDriftReachesAmbient(env: real, now: real, elapsed: int)
    requires elapsed >= 0 && elapsed as real * OffRate >= Abs(env - now)
    ensures OffDrift(env, now, elapsed) == env
  {
    OffDriftIsDriftToward(env, now, elapsed);
  }

  /** Number of central units for a room: one per whole 100 volume, plus one (floor division). */
  function CentralUnits(volume: int): (k: int)
    ensures (k - 1) * CentralUnitVolume <= volume < k * CentralUnitVolume
    ensures volume >= 0 ==> k >= 1
  {
    // Dafny's / is Euclidean, which equals Python's floor // for a positive divisor
    volume / CentralUnitVolume + 1
  }

  /** Power of a running unit by tier; any tier other than central keeps the home table value. */
  function Power(acType: int, windRate: int, volume: int): (p: int)
    requires 0 <= windRate < |HomePower|
    ensures acType != Central ==> p == HomePower[windRate] && p in {5000, 6000, 7500}
    ensures acType == Central ==> p == CentralUnits(volume) * CentralPower
    ensures acType == Central && volume >= 0 ==> p >= CentralPower
  {
    if acType == Central then CentralUnits(volume) * CentralPower else HomePower[windRate]
  }

  /** Airflow per second of a running unit by tier. */
  function Airflow(acType: int, windRate: int, volume: int): (f: real)
    requires 0 <= windRate < |HomeAirflow|
    ensures acType != Central ==> f == HomeAirflow[windRate] && f in {0.178, 0.213, 0.267}
    ensures acType == Central ==> f == CentralUnits(volume) as real * CentralAirflow
    ensures acType == Central && volume >= 0 ==> f >= CentralAirflow
  {
    if acType == Central then CentralUnits(volume) as real * CentralAirflow else HomeAirflow[windRate]
  }

  /** What the tiers feed into the physics: a home unit by fan speed, a central one by room size. */
  lemma TierSelection(acType: int, windRate: int, volume: int)
    requires 0 <= windRate <= 2 && 0 <= acType <= 1 && volume >= 0
    ensures acType == Home ==> Power(acType, windRate, volume) in {5000, 6000, 7500}
    ensures acType == Home && windRate < 2 ==> Power(acType, windRate, volume) < Power(acType, windRate + 1, volume)
    ensures acType == Central ==> Power(acType, windRate, volume) >= CentralPower
    ensures acType == Central ==> Power(acType, windRate, volume) == CentralUnits(volume) * CentralPower
    ensures acType == Central ==> Airflow(acType, windRate, volume) >= CentralAirflow
  {
  }

  /**
   * The lazy update: the temperature is advanced from lastUpdate to now and
   * lastUpdate becomes now. A running unit goes through the physics with the
   * power and airflow of its tier; a switched-off one drifts toward ambient.
   */
  function Advance(u: Unit, now: int, getTemp: TempFn): (v: Unit)
    requires u.isOn ==> 0 <= u.windRate < |HomePower|
    ensures v == u.(nowTemp := v.nowTemp, lastUpdate := now)
    ensures InRange(u) ==> InRange(v)
    ensures u.isOn ==>
              v.nowTemp == getTemp(u.volume, Airflow(u.acType, u.windRate, u.volume), u.setTemp, u.nowTemp,
                                   now - u.lastUpdate, Power(u.acType, u.windRate, u.volume))
    ensures !u.isOn ==> v.nowTemp == OffDrift(u.envTemp as real, u.nowTemp, now - u.lastUpdate)
    ensures !u.isOn && now >= u.lastUpdate && u.nowTemp <= u.envTemp as real ==>
              u.nowTemp <= v.nowTemp <= u.envTemp as real
    ensures !u.isOn && now >= u.lastUpdate && u.envTemp as real <= u.nowTemp ==>
              u.envTemp as real <= v.nowTemp <= u.nowTemp
    ensures !u.isOn && now == u.lastUpdate ==> v == u
  {
    var elapsed := now - u.lastUpdate;
    var t := if u.isOn
             then getTemp(u.volume, Airflow(u.acType, u.windRate, u.volume), u.setTemp, u.nowTemp,
                          elapsed, Power(u.acType, u.windRate, u.volume))
             else OffDrift(u.envTemp as real, u.nowTemp, elapsed);
    u.(nowTemp := t, lastUpdate := now)
  }

  /** Over a switched-off stretch, advancing to t1 and then to t2 is the same as advancing to t2. */
  lemma AdvanceOffComposes(u: Unit, t1: int, t2: int, getTemp: TempFn)
    requires !u.isOn && u.lastUpdate <= t1 <= t2
    ensures Advance(Advance(u, t1, getTemp), t2, getTemp) == Advance(u, t2, getTemp)
  {
    OffDriftAdditive(u.envTemp as real, u.nowTemp, t1 - u.lastUpdate, t2 - t1);
  }
}

=== FILE: wrappers.dfy ===
/** Option and Result, used for missing record fields, the parse result of an
    argument and the errors a command reports instead of raising. */
module Wrappers {

  datatype Option<+T> = None | Some(value: T)

  datatype Result<+T, +E> = Ok(value: T) | Err(error: E)
}
